=== FILE: README.md ===
# Cassette player: playback core in Dafny

This project models the playback logic of the cassette-style web player in
`app.js`. It has four parts:

- a shelf of tapes;
- the flat track list (the "playlist") built from the active tape;
- a playback cursor driven by buttons, keys, a progress timer and player events;
- the timestamp arithmetic the cursor depends on.

The embedded video player is an oracle. What it reports comes in as
parameters: `getCurrentTime`, `getDuration`, and the state and error codes of
its events. What it is told to do (`cueVideoById`, `loadVideoById`,
`seekTo`, `playVideo`, `pauseVideo`, `setVolume`) goes out as a list of
`Command`s. The transitions that talk to the player are pure functions
from a `Deck` to a `Step(deck, cmds)`. The ones that never send a command
return a bare `Deck`: the progress tick (`Tick`, `TickWhole`, `TickWindow`,
`Progress`), the timer bookkeeping (`StartPolling`, `StopPolling`) and the
shelf reorder (`ReorderTapes`).

Files:

- `wrappers.dfy`: `Option`.
- `timestamp.dfy` (module `Timestamp`):
  - `parseTimestamp` and `formatTime`;
  - JavaScript's `split(':')`, `Number`, `Math.floor`, the truncating `%`, `toString` and `padStart`, written out on mathematical values.
- `library.dfy` (module `Library`):
  - the two kinds of tape (single video with timestamped tracks, and collection with one video per track);
  - the projection of a tape onto the playlist, which includes `calculateTrackDuration`;
  - the drag-and-drop reorder of the shelf.
- `deck.dfy` (module `Deck`):
  - the player state (`Deck`) and its invariant `Valid`;
  - every transition of the cursor.
- `deck_properties.dfy` (module `DeckProperties`): properties that relate several transitions.

Modelling choices:

- Times are Dafny `real`s (mathematical reals, not IEEE doubles). Start offsets are `nat`.
- An empty string stands for a missing or empty field, which JavaScript treats as false: `videoId`, a clip's `duration`.
- `Valid` states that the playlist mirrors the active tape entry by entry. Every transition keeps `Valid`, with one exception: `LoadTape` keeps it only for a playable tape or the current index (see "## Left out"), and every caller of `loadTape` is of that kind. So each statement about the playlist is also a statement about the catalogue.
- A progress timer counts as running when the handle `ytProgressInterval` holds it. `liveTimers` counts the intervals actually running, and `Valid` requires it to be 1 exactly when the handle is set. `StartPolling` keeps that count at 1 because it clears the old interval before starting a new one.
- The 100 ms timer that pauses a collection track loaded without `autoPlay` becomes a `DeferredPause` command, emitted after the load.
- The progress interval becomes a `Tick` step with the player's time and duration as inputs.

Where an idealised player would behave differently, the model follows the code:

- `playTrack` and `pauseTrack` change `isPlaying` even when the player is not ready. Only the player command is guarded (app.js:919-936).
- `loadTape` stores the new tape index before it rejects a tape that has neither a video nor the collection flag (app.js:1225-1228). `LoadTape` keeps that order.

## Model

| member | source | states |
|---|---|---|
| Timestamp.NatToString | app.js:1056-1060 | `toString` of a whole number: decimal digits that read back as the number, a single digit exactly when it is below 10 |
| Timestamp.SecondsField | app.js:1058 | the seconds after `padStart(2, '0')`: exactly two digits whose value is the seconds |
| Timestamp.JsRemInt | app.js:948-957 | JavaScript's `%`: agrees with the mathematical remainder on non-negative operands and lies strictly between −m and m |
| Timestamp.Split | app.js:1280 | `split(':')` always gives at least one piece, no piece contains a colon, and on timestamp text every piece is digits |
| Timestamp.SplitJoin | app.js:1280 | splitting pieces joined with colons gives back the pieces, when they are colon-free |
| Timestamp.JoinSplit | app.js:1280 | joining the pieces of a split with colons gives back the original string |
| Timestamp.ParseTimestamp | app.js:1279-1287 | `parseTimestamp` itself; a bare number without a colon reads as 0 seconds. Its value on two and three pieces is stated by ParseJoined, and FormatThenParse makes `formatTime` its inverse on whole seconds |
| Timestamp.FormatTime | app.js:1056-1060 | `formatTime` itself: the text always has its colon, and for a time that is not negative it is digit-and-colon timestamp text with no minus sign. Its exact shape on whole seconds is stated by FormatWholeSeconds |
| Timestamp.ParseJoined | app.js:1279-1287 | three pieces parse to h·3600+m·60+s, two pieces to m·60+s, any other count to 0 |
| Timestamp.ParseMinutesSeconds | app.js:1283-1284 | `M:SS` text parses to M·60+SS |
| Timestamp.FormatWholeSeconds | app.js:1056-1060 | for every natural n, `formatTime(n)` is ⌊n/60⌋, a colon, and the remainder as two zero-padded digits |
| Timestamp.FormatThenParse | app.js:1279-1287 | round trip: for every natural n, `parseTimestamp(formatTime(n)) = n` |
| Timestamp.FormatSample | app.js:1056-1060 | 162 seconds are rendered `2:42` |
| Timestamp.FormatZero | app.js:1056-1060 | 0 seconds are rendered `0:00` |
| Timestamp.FirstStampSeconds | app.js:138 | the catalogue's `0:00` is 0 seconds |
| Timestamp.SecondStampSeconds | app.js:139 | the catalogue's `2:42` is 162 seconds |
| Timestamp.ParseHourStamp | app.js:163 | the catalogue's `1:01:00` is 3660 seconds |
| Library.ProjectAt | app.js:1231-1248 | one entry of the built playlist: the catalogue entry's title under the tape's title as artist, a non-empty duration (so the `"0:00"` fallback of `loadTrack` at app.js:751 never fires), a source of the tape's own kind, and a single-video start equal to the value of its own timestamp text |
| Library.Project | app.js:1231-1248 | one track per catalogue entry, in catalogue order, with the entry's title and the tape's title as artist; a single-video track keeps its timestamp, starts at the parsed value and lasts what `calculateTrackDuration` gives, the last one `3:00`; a collection track keeps its video and its catalogued duration, or `—` when there is none |
| Library.CalculateTrackDuration | app.js:1290-1297 | the shown length always has a colon, and it is timestamp text whenever the next track does not start earlier; ProjectedDurationAt states that it reads back as the gap to the next start, or 180 seconds for the last track |
| Library.MirrorsIsProject | app.js:1231-1248 | a playlist mirrors a tape exactly when it is the playlist built from it, so the mirrored list is unique |
| Library.LastDurationIsThreeMinutes | app.js:1296 | the fixed `3:00` of a last track reads back as 180 seconds |
| Library.ProjectedDurationAt | app.js:1290-1297 | with ordered timestamps, a track's start plus its duration read back as a timestamp is the next track's start; the last track lasts 180 seconds |
| Library.ProjectedDurationsTile | app.js:1290-1297 | the same for every track at once: the durations tile the video from each start to the next |
| Library.OpeningTracks | app.js:138-139 | a tape opening `0:00`, `2:42` starts its first two tracks at 0 and 162 seconds, shows `2:42` as the first track's length, and its last track shows `3:00` |
| Library.Remove | app.js:715 | `splice(i, 1)`: one shorter, the entries after `i` move down by one |
| Library.Insert | app.js:716 | `splice(i, 0, x)`: one longer, `x` at `i`, the entries from `i` on move up by one |
| Library.DropIndex | app.js:707-712 | the index the dragged tape is re-inserted at: the target ends up right after it when dropped on the target's left half and right before it when dropped on the right half, and the index stays within the shelf |
| Library.FollowActive | app.js:719-725 | the three-way update of the active index is exactly the new position `MovedPosition` of the tape that was active |
| Library.Drop | app.js:698-729 | a drop without a drag in progress, or onto the dragged card itself, changes nothing; otherwise the length is kept and the active index stays in range |
| Library.MultisetRemoveInsert | app.js:715-716 | taking a tape out and putting it back elsewhere permutes the shelf |
| Library.MovedPositionLands | app.js:715-716 | after the splice, every tape sits at its reference position `MovedPosition` |
| Library.DropTracksEveryTape | app.js:698-729 | a real drop is a permutation, the dragged tape lands at the drop index, every tape moves to its reference position, and the adjusted active index is the new position of the tape that was active |
| Library.DropActiveToFront | app.js:719-720 | dragging the active tape from 2 to the left of 0 makes 0 the active index |
| Library.DropAcrossActive | app.js:721-722 | dragging tape 0 past active tape 2 makes 1 the active index, still holding the same tape |
| Deck.Clamp | app.js:1015 | `Math.max(lo, Math.min(hi, x))` lies in [lo, hi]: `x` itself inside the range, `lo` below it and `hi` above it |
| Deck.StampedStart | app.js:1240-1246 | on a single-video tape, the playlist's start offset of each track is its catalogue timestamp, parsed |
| Deck.Init | app.js:558-579 | the initial state: the given shelf with the first tape active, that tape's playlist, track 0, paused, not ready, volume 0.7, no timer, and the invariant holds |
| Deck.TrackCommands | app.js:753-770 | the commands for one track: the first puts the player on the track (load the clip's own video, or seek to the start); `Play` is sent exactly for a single-video track with autoPlay, the deferred pause exactly for a clip loaded without it; a collection track without a video gets nothing |
| Deck.LoadTrack | app.js:734-779 | an index outside the playlist changes nothing; otherwise the cursor moves to exactly that index and the bar resets to the track's own duration (the `"0:00"` fallback is never needed); a ready player on a single-video tape seeks to the catalogue start and plays only on autoPlay; on a collection tape it loads the clip's video and a pause follows unless autoPlay, and a clip without a video gets no command; a player that is not ready gets no command |
| Deck.PlayTrack | app.js:919-926 | the playing flag is set whether or not the player is ready; only a ready player is told to play |
| Deck.PauseTrack | app.js:929-936 | the playing flag is cleared whether or not the player is ready; only a ready player is told to pause |
| Deck.TogglePlay | app.js:939-945 | always flips the flag; a ready player gets the matching command |
| Deck.NextTrack | app.js:954-957 | one track on, wrapping from the last to the first; only the cursor changes, and the bar resets to the new track's duration; the current playing flag is the autoPlay of the load, so a ready player seeks (and plays if playing) or loads the next clip (and pauses unless playing); a clip without a video gets no command |
| Deck.PrevTrack | app.js:948-951 | one track back, wrapping from the first to the last; the rest as for next |
| Deck.Rewind | app.js:960-981 | only with a ready player and a non-empty playlist; one seek, ten seconds back but never before 0 (collection) or the track's catalogue start (single video), and equal to one of the two bounds; the state is unchanged |
| Deck.FastForward | app.js:984-1011 | one seek, ten seconds on but never past one second before the video's end (collection) or the next track's start (single video); the same guard and no state change |
| Deck.Lerp | app.js:1049 | `a + p·(b − a)`: equals `a` at 0 and `b` at 1, and lies between them when `a ≤ b` |
| Deck.Seek | app.js:1023-1053 | the clamped fraction is interpolated over the whole video (collection) or over the track's window from its catalogue start to its end (single video), landing inside it; the same guard and no state change |
| Deck.UpdateVolume | app.js:1014-1020 | the volume ends in [0, 1], equals the value when it is in range and the nearer bound otherwise; a ready player gets it ×100; nothing else changes |
| Deck.VolumeUp | app.js:1148-1151 | the Up arrow raises the volume by 0.1 or to 1, never beyond; nothing else changes, and a ready player gets the new level ×100 through `updateVolume` |
| Deck.VolumeDown | app.js:1152-1155 | the Down arrow lowers the volume by 0.1 or to 0, never below; nothing else changes, and a ready player gets the new level ×100 |
| Deck.Percent | app.js:1401 | the progress fill is always in [0, 100]: the true percentage while the position lies in the window, 0 before it and 100 past it |
| Deck.TickWhole | app.js:1376-1384 | on a collection tape a tick only rewrites the bar, and only when the duration is positive: the fill is the position's share of the whole video clamped to [0, 100] (0 before the start, 100 past the end), the elapsed text is the formatted position, and the total text becomes the formatted video length in place of the catalogued one |
| Deck.Progress | app.js:1397-1403 | the bar for a track window changes only the display, and only when the window is not empty; the fill is then the clamped share of the window (0 before its start, 100 past its end) and the total text is kept |
| Deck.TickWindow | app.js:1385-1413 | on a single-video tape the cursor moves exactly one track on, and only when the track is not the last, its window is not empty and the player has reached the next start; the bar then resets to the next track's duration; otherwise the tick is exactly the window update `Progress` from the track's start to its end |
| Deck.Tick | app.js:1370-1416 | a tick does nothing unless the player is ready, playing and the playlist is non-empty; on a collection tape it is the whole-video update `TickWhole`, on a single-video tape the window update `TickWindow`; it moves the cursor at most one track on, exactly when the single-video condition holds against the catalogue starts; it keeps the invariant, so the fill stays in [0, 100] and the index stays in range |
| Deck.StopPolling | app.js:1420-1425 | afterwards the handle is empty and no interval runs |
| Deck.StartPolling | app.js:1368-1370 | afterwards exactly one interval runs, whatever ran before |
| Deck.OnPlayerStateChange | app.js:1300-1347 | PLAYING sets the flag and leaves exactly one timer; PAUSED clears it and stops the timer; ENDED advances one track only on a collection tape that is not on its last track, and then it is exactly `nextTrack`: only the cursor and the bar change, and a ready player loads the next clip (paused afterwards unless playing); otherwise it pauses with the cursor where it is; other states change nothing |
| Deck.OnPlayerError | app.js:1350-1357 | only codes 150 and 101 skip to the next track, and then it is exactly `nextTrack`: wrapping, only the cursor and the bar change, and a ready player seeks to the next catalogue start or loads the next clip, keeping the playing flag; any other code changes nothing |
| Deck.CueTarget | app.js:1251-1258 | the video `loadTape` cues: nothing exactly when the tape cannot play or is a collection without clips; otherwise the collection's first clip or the single video |
| Deck.LoadTape | app.js:1221-1276 | the tape index is stored first; a tape without content stops there; otherwise the playlist is rebuilt from the tape, the cursor goes to 0, the bar resets to the first duration, and a ready player cues the first video (collection) or the tape's video (single video) |
| Deck.SelectTape | app.js:639-657 | a click on a tape without content is ignored; otherwise playback is paused and the tape is loaded: only the playing flag, the tape index, the rebuilt playlist, the cursor (to 0) and the bar change, and a ready player gets exactly the pause (if it was playing) followed by the cue of the tape's first video; the invariant is kept |
| Deck.OnPlayerReady | app.js:1212-1218 | the player becomes ready and the active tape is loaded: only readiness, the cursor (to 0) and the bar change, or only readiness for a tape without content; the commands are exactly the current volume ×100 followed by the cue of the tape's first video, if any |
| Deck.InitialVideo | app.js:1187-1191 | the player starts on a non-empty video: the one `loadTape` cues for the active tape, or the fixed fallback when there is none |
| Deck.ShelfPermutationKeepsValid | app.js:715-725 | permuting the shelf while the index follows the active tape keeps the invariant |
| Deck.ReorderTapes | app.js:698-729 | the shelf is permuted, the active index still names the tape that was active (so the playlist still mirrors it), the dragged tape lands at the drop index, and a drop on itself changes nothing |
| DeckProperties.NextN | app.js:954-957 | pressing next k times keeps the playlist and the playing flag |
| DeckProperties.NextNAdvances | app.js:954-957 | up to a full round, k presses of next move the cursor k tracks on, wrapping once |
| DeckProperties.NextCycle | app.js:954-957 | as many presses of next as there are tracks come back to the starting track |
| DeckProperties.PrevUndoesNext | app.js:948-957 | previous after next restores track, tape, playlist and playing flag |
| DeckProperties.NextUndoesPrev | app.js:948-957 | next after previous restores them too |
| DeckProperties.ToggleTwice | app.js:939-945 | two presses of play/pause restore the state, and a ready player is told the two opposite commands |
| DeckProperties.UpdateVolumeIdempotent | app.js:1014-1020 | setting the same volume twice is the same as setting it once |
| DeckProperties.NotReadySendsNothing | app.js:919-1053 | before the player is ready no command is sent, yet play/pause flips the flag and next moves the cursor |
| DeckProperties.EndedOnSingleVideoPauses | app.js:1334-1340 | ENDED on a single-video tape pauses, stops the timer, and leaves the cursor where it is |

## Left out

- Web Audio sound effects (app.js:3-124): audio output only; no state of the cursor depends on them.
- Reel animation, artwork colour extraction, tone colours and all DOM rendering: presentation. The drag geometry becomes a `dropLeft` flag, and the click position on the progress bar becomes a `fraction`.
- The volume knob's pointer maths (`atan2`) and `setKnobFromVolume`: presentation. Only `updateVolume` and the arrow keys are modelled.
- The embedded player itself: it appears only as inputs and emitted commands. The delay of the deferred pause and the 250 ms period of the progress interval are not modelled; the pause is a command and a tick is a step.
- `sw.js`: service-worker caching, outside the playback logic.
- The static catalogue (app.js:130-382): only its first entries serve as sample values.
- Timestamp.ParseTimestamp: JavaScript's `Number` is modelled only on strings of decimal digits. Non-numeric text (which gives NaN in the source) is excluded by the precondition `IsTimestampText`.
- Deck.NextTrack and Deck.PrevTrack: require a non-empty playlist. On an empty one the source computes `x % 0`, which is NaN, and passes NaN through `loadTrack`'s bounds check.
- Deck.OnPlayerError: codes 150 and 101 likewise require a non-empty playlist, because they call `nextTrack`.
- Deck.UpdateVolume, Deck.VolumeUp, Deck.VolumeDown: exact real arithmetic. The source's IEEE rounding (for example 0.7 + 0.1) is not modelled.
- Deck.LoadTape: guarantees the invariant only for a playable tape or the current index. That is the only way the source reaches it: the click guard at app.js:644 and `onPlayerReady` passing the current index. A raw `loadTape` of another unplayable tape would leave a playlist that belongs to a different tape.
- Deck.CueTarget: a `videoId` field on a collection tape is not part of the data model. `loadTape` would read it (app.js:1255) for a collection with no tracks, but the catalogue never sets one on a collection tape, so the model cues nothing there.
- Deck.Tick: on a single-video tape the elapsed-time text written while a track plays is computed but not constrained beyond its type.

=== FILE: deck.dfy ===
/**
  The playback cursor of the cassette player as pure transitions.

  The embedded video player is outside the model: what it reports
  (`getCurrentTime`, `getDuration`, state-change and error events) arrives as
  parameters, and what the player is told to do (`cueVideoById`,
  `loadVideoById`, `seekTo`, `playVideo`, `pauseVideo`, `setVolume`) leaves
  each transition as a list of commands. Times are mathematical reals.
 */
module Deck {
  import opened Timestamp
  import opened Library
  import opened Wrappers

  /** An instruction to the embedded player. */
  datatype Command =
    | Cue(videoId: string)                          // cueVideoById: load without playing
    | LoadAndPlay(videoId: string)                  // loadVideoById: load and start playing
    | DeferredPause                                 // pauseVideo, issued by a 100 ms timer
    | SeekTo(seconds: real, allowSeekAhead: bool)
    | Play
    | Pause
    | SetVolume(level: real)                        // on the player's 0..100 scale

  /** What the progress bar shows: fill percentage, elapsed and total time text. */
  datatype Display = Display(percent: real, elapsed: string, total: string)

  /**
    The process-wide player state. `timerHandle` says whether the progress
    interval variable holds a timer; `liveTimers` counts the intervals
    actually running.
   */
  datatype Deck = Deck(
    tapes: seq<Tape>,
    tapeIndex: nat,
    playlist: seq<Track>,
    trackIndex: nat,
    playing: bool,
    volume: real,
    ready: bool,
    timerHandle: bool,
    liveTimers: nat,
    display: Display)

  /** The state after a transition and the commands it sent to the player, in order. */
  datatype Step = Step(deck: Deck, cmds: seq<Command>)

  /** The embedded player's states, as its state-change events report them. */
  datatype PlayerState = Unstarted | Ended | Playing | Paused | Buffering | Cued

  const InitialVolume: real := 0.7
  const SkipSeconds: real := 10.0
  const VolumeStep: real := 0.1
  /** The video the player is created with when the active tape names none. */
  const FallbackVideo: string := "QBU1VVd9qO4"
  /** Error codes of the embedded player for an unavailable video and for a video that may not be embedded. */
  const ErrorUnavailable: int := 150
  const ErrorNotEmbeddable: int := 101

  function Max(a: real, b: real): real { if a >= b then a else b }
  function Min(a: real, b: real): real { if a <= b then a else b }

  /** `Math.max(lo, Math.min(hi, x))`. */
  function Clamp(x: real, lo: real, hi: real): (r: real)
    requires lo <= hi
    ensures lo <= r <= hi
    ensures lo <= x <= hi ==> r == x
    ensures x < lo ==> r == lo
    ensures x > hi ==> r == hi
  {
    Max(lo, Min(hi, x))
  }

  /**
    The invariant every transition keeps: the active tape exists, every
    timestamp is well formed, the playlist is the projection of the active
    tape, the track index points into it (or is 0 for an empty one), the
    volume and the progress fill are in range, and the only running progress
    timer is the one the handle holds.
   */
  predicate Valid(d: Deck) {
    && d.tapeIndex < |d.tapes|
    && (forall t :: t in d.tapes ==> WellFormed(t))
    && Mirrors(d.playlist, d.tapes[d.tapeIndex])
    && (d.trackIndex < |d.playlist| || d.trackIndex == 0)
    && 0.0 <= d.volume <= 1.0
    && d.liveTimers == (if d.timerHandle then 1 else 0)
    && 0.0 <= d.display.percent <= 100.0
  }

  function ActiveTape(d: Deck): Tape
    requires d.tapeIndex < |d.tapes|
  {
    d.tapes[d.tapeIndex]
  }

  /** `tape && tape.isPlaylist` for the active tape. */
  predicate OnCollection(d: Deck)
    requires d.tapeIndex < |d.tapes|
  {
    ActiveTape(d).recording.Collection?
  }

  /** `track.startSeconds || 0`. */
  function StartSeconds(t: Track): nat {
    if t.source.Stamp? then t.source.startSeconds else 0
  }

  /** Where the current track of a single-video tape starts. */
  function TrackStart(d: Deck): real
    requires d.trackIndex < |d.playlist|
  {
    StartSeconds(d.playlist[d.trackIndex]) as real
  }

  /** Where the current track ends: the next track's start, or the end of the video for the last track. */
  function TrackEnd(d: Deck, duration: real): real
    requires d.trackIndex < |d.playlist|
  {
    if d.trackIndex < |d.playlist| - 1 then StartSeconds(d.playlist[d.trackIndex + 1]) as real else duration
  }

  /** Start of track `i` of the active single-video tape, read from the catalogue. */
  function CatalogueStart(d: Deck, i: nat): nat
    requires d.tapeIndex < |d.tapes| && WellFormed(ActiveTape(d))
    requires ActiveTape(d).recording.SingleVideo? && i < |ActiveTape(d).recording.stamps|
  {
    StartOf(ActiveTape(d).recording.stamps, i)
  }

  /** On a single-video tape track `i` of the playlist starts where the catalogue says. */
  lemma StampedStart(d: Deck, i: nat)
    requires Valid(d) && !OnCollection(d) && i < |d.playlist|
    ensures WellFormed(ActiveTape(d)) && i < |ActiveTape(d).recording.stamps|
    ensures StartSeconds(d.playlist[i]) == CatalogueStart(d, i)
  {
    assert ActiveTape(d) in d.tapes;
    assert d.playlist[i] == ProjectAt(ActiveTape(d), i);
  }

  /** The current track's window on a single-video tape, its start and the next track's start, is the catalogue's. */
  lemma StampedWindow(d: Deck)
    requires Valid(d) && !OnCollection(d) && d.trackIndex < |d.playlist|
    ensures WellFormed(ActiveTape(d)) && |ActiveTape(d).recording.stamps| == |d.playlist|
    ensures StartSeconds(d.playlist[d.trackIndex]) == CatalogueStart(d, d.trackIndex)
    ensures d.trackIndex + 1 < |d.playlist| ==>
      StartSeconds(d.playlist[d.trackIndex + 1]) == CatalogueStart(d, d.trackIndex + 1)
  {
    StampedStart(d, d.trackIndex);
    if d.trackIndex + 1 < |d.playlist| {
      StampedStart(d, d.trackIndex + 1);
    }
  }

  /** Moving the cursor inside the playlist and redrawing the bar keeps the invariant. */
  lemma CursorMoveKeepsValid(d: Deck, i: nat, display: Display)
    requires Valid(d) && i < |d.playlist| && 0.0 <= display.percent <= 100.0
    ensures Valid(d.(trackIndex := i, display := display))
  {
  }

  /** The state `init` builds: the first tape's playlist, nothing playing, no player yet. */
  function Init(tapes: seq<Tape>): (d: Deck)
    requires |tapes| > 0
    requires forall t :: t in tapes ==> WellFormed(t)
    ensures Valid(d)
    ensures d.tapes == tapes && d.playlist == Project(tapes[0]) && d.volume == InitialVolume && !d.timerHandle
    ensures d.tapeIndex == 0 && d.trackIndex == 0 && |d.playlist| == TrackCount(tapes[0])
    ensures !d.playing && !d.ready && d.liveTimers == 0
  {
    Deck(tapes, 0, Project(tapes[0]), 0, false, InitialVolume, false, false, 0, Display(0.0, "0:00", "0:00"))
  }

  /** The progress bar after `loadTrack`/`loadTape` reset it. */
  function ResetDisplay(total: string): Display {
    Display(0.0, "0:00", total)
  }

  /**
    What `loadTrack` sends to a ready player for a track of a tape: first the
    command that puts the player on the track (load its own video, or seek to
    its start), then at most one more. `Play` is sent exactly when a
    single-video track is loaded with `autoPlay`; the deferred pause exactly
    when a collection clip, which starts by itself, is loaded without it.
    A collection track without a video gets nothing.
   */
  function TrackCommands(tape: Tape, track: Track, autoPlay: bool): (r: seq<Command>)
    ensures |r| <= 2
    ensures r != [] <==> track.source.Stamp? || (tape.recording.Collection? && track.source.videoId != "")
    ensures r != [] ==>
      r[0] == if track.source.Stamp? then SeekTo(track.source.startSeconds as real, true) else LoadAndPlay(track.source.videoId)
    ensures Play in r <==> track.source.Stamp? && autoPlay
    ensures DeferredPause in r <==> r != [] && track.source.Clip? && !autoPlay
  {
    if tape.recording.Collection? && track.source.Clip? && track.source.videoId != "" then
      [LoadAndPlay(track.source.videoId)] + (if autoPlay then [] else [DeferredPause])
    else if track.source.Stamp? then
      [SeekTo(track.source.startSeconds as real, true)] + (if autoPlay then [Play] else [])
    else
      []
  }

  /**
    `loadTrack(index, autoPlay)`: an index outside the playlist is ignored;
    otherwise the cursor moves to exactly that track and the progress bar is
    reset. A collection tape switches the player to the track's own video
    (which starts playing, so a pause follows unless `autoPlay`); a
    single-video tape seeks to the track's start and plays only on `autoPlay`.
   */
  function LoadTrack(d: Deck, index: int, autoPlay: bool): (r: Step)
    requires Valid(d)
    ensures Valid(r.deck)
    ensures (index < 0 || index >= |d.playlist|) ==> r == Step(d, [])
    ensures 0 <= index < |d.playlist| ==>
      && r.deck == d.(trackIndex := index, display := r.deck.display)
      && r.deck.display.percent == 0.0 && r.deck.display.elapsed == "0:00"
      && r.deck.display.total == d.playlist[index].duration
    ensures !d.ready ==> r.cmds == []
    ensures d.ready && 0 <= index < |d.playlist| && !OnCollection(d) ==>
      r.cmds == [SeekTo(CatalogueStart(d, index) as real, true)] + (if autoPlay then [Play] else [])
    ensures d.ready && 0 <= index < |d.playlist| && OnCollection(d) && ActiveTape(d).recording.clips[index].videoId != "" ==>
      r.cmds == [LoadAndPlay(ActiveTape(d).recording.clips[index].videoId)] + (if autoPlay then [] else [DeferredPause])
    ensures d.ready && 0 <= index < |d.playlist| && OnCollection(d) && ActiveTape(d).recording.clips[index].videoId == "" ==>
      r.cmds == []
  {
    if index < 0 || index >= |d.playlist| then
      Step(d, [])
    else
      var track := d.playlist[index];
      assert track == ProjectAt(ActiveTape(d), index);
      var total := if track.duration != "" then track.duration else "0:00";
      var cmds := if d.ready then TrackCommands(ActiveTape(d), track, autoPlay) else [];
      Step(d.(trackIndex := index, display := ResetDisplay(total)), cmds)
  }

  /** `playTrack`: the flag is set whether or not the player is ready; only the command is guarded. */
  function PlayTrack(d: Deck): (r: Step)
    requires Valid(d)
    ensures Valid(r.deck)
    ensures r.deck == d.(playing := true)
    ensures r.cmds == if d.ready then [Play] else []
  {
    Step(d.(playing := true), if d.ready then [Play] else [])
  }

  /** `pauseTrack`: the flag is cleared whether or not the player is ready. */
  function PauseTrack(d: Deck): (r: Step)
    requires Valid(d)
    ensures Valid(r.deck)
    ensures r.deck == d.(playing := false)
    ensures r.cmds == if d.ready then [Pause] else []
  {
    Step(d.(playing := false), if d.ready then [Pause] else [])
  }

  /** `togglePlay`: always flips the playing flag; tells a ready player to do the matching thing. */
  function TogglePlay(d: Deck): (r: Step)
    requires Valid(d)
    ensures Valid(r.deck)
    ensures r.deck == d.(playing := !d.playing)
    ensures r.cmds == if !d.ready then [] else if d.playing then [Pause] else [Play]
  {
    if d.playing then PauseTrack(d) else PlayTrack(d)
  }

  /** Below twice the modulus, the remainder wraps at most once. */
  lemma WrapOnce(a: nat, n: nat)
    requires 0 < n && a < 2 * n
    ensures a % n == if a < n then a else a - n
  {
    if a >= n {
      assert a / n == 1;
    }
  }

  /**
    `nextTrack`: one track on, wrapping to the first, keeping play/pause.
    An empty playlist is excluded: the source computes `x % 0` there.
   */
  function NextTrack(d: Deck): (r: Step)
    requires Valid(d) && |d.playlist| > 0
    ensures Valid(r.deck)
    ensures r.deck.trackIndex == if d.trackIndex + 1 < |d.playlist| then d.trackIndex + 1 else 0
    ensures r.deck == d.(trackIndex := r.deck.trackIndex, display := ResetDisplay(d.playlist[r.deck.trackIndex].duration))
    ensures !d.ready ==> r.cmds == []
    ensures d.ready && !OnCollection(d) ==>
      r.cmds == [SeekTo(CatalogueStart(d, r.deck.trackIndex) as real, true)] + (if d.playing then [Play] else [])
    ensures d.ready && OnCollection(d) && ActiveTape(d).recording.clips[r.deck.trackIndex].videoId != "" ==>
      r.cmds == [LoadAndPlay(ActiveTape(d).recording.clips[r.deck.trackIndex].videoId)] + (if d.playing then [] else [DeferredPause])
    ensures d.ready && OnCollection(d) && ActiveTape(d).recording.clips[r.deck.trackIndex].videoId == "" ==> r.cmds == []
  {
    WrapOnce(d.trackIndex + 1, |d.playlist|);
    LoadTrack(d, JsRemInt(d.trackIndex + 1, |d.playlist|), d.playing)
  }

  /** `prevTrack`: one track back, wrapping to the last, keeping play/pause. */
  function PrevTrack(d: Deck): (r: Step)
    requires Valid(d) && |d.playlist| > 0
    ensures Valid(r.deck)
    ensures r.deck.trackIndex == if d.trackIndex > 0 then d.trackIndex - 1 else |d.playlist| - 1
    ensures r.deck == d.(trackIndex := r.deck.trackIndex, display := ResetDisplay(d.playlist[r.deck.trackIndex].duration))
    ensures !d.ready ==> r.cmds == []
    ensures d.ready && !OnCollection(d) ==>
      r.cmds == [SeekTo(CatalogueStart(d, r.deck.trackIndex) as real, true)] + (if d.playing then [Play] else [])
    ensures d.ready && OnCollection(d) && ActiveTape(d).recording.clips[r.deck.trackIndex].videoId != "" ==>
      r.cmds == [LoadAndPlay(ActiveTape(d).recording.clips[r.deck.trackIndex].videoId)] + (if d.playing then [] else [DeferredPause])
    ensures d.ready && OnCollection(d) && ActiveTape(d).recording.clips[r.deck.trackIndex].videoId == "" ==> r.cmds == []
  {
    WrapOnce(d.trackIndex - 1 + |d.playlist|, |d.playlist|);
    LoadTrack(d, JsRemInt(d.trackIndex - 1 + |d.playlist|, |d.playlist|), d.playing)
  }

  /**
    `rewind`: ten seconds back, but never before 0 on a collection tape nor
    before the current track's start on a single-video tape. Only a ready
    player with a non-empty playlist is told anything; the state never changes.
   */
  function Rewind(d: Deck, currentTime: real): (r: Step)
    requires Valid(d)
    ensures r.deck == d
    ensures !d.ready || |d.playlist| == 0 ==> r.cmds == []
    ensures d.ready && |d.playlist| > 0 ==>
      |r.cmds| == 1 && r.cmds[0].SeekTo? && r.cmds[0].allowSeekAhead
    ensures d.ready && |d.playlist| > 0 && OnCollection(d) ==>
      var t := r.cmds[0].seconds;
      t >= 0.0 && t >= currentTime - SkipSeconds && (t == 0.0 || t == currentTime - SkipSeconds)
    ensures d.ready && |d.playlist| > 0 && !OnCollection(d) ==>
      var t := r.cmds[0].seconds;
      var start := CatalogueStart(d, d.trackIndex) as real;
      t >= start && t >= currentTime - SkipSeconds && (t == start || t == currentTime - SkipSeconds)
  {
    if !d.ready || |d.playlist| == 0 then
      Step(d, [])
    else if OnCollection(d) then
      Step(d, [SeekTo(Max(0.0, currentTime - SkipSeconds), true)])
    else
      StampedStart(d, d.trackIndex);
      Step(d, [SeekTo(Max(TrackStart(d), currentTime - SkipSeconds), true)])
  }

  /**
    `fastForward`: ten seconds on, but never past one second before the end
    of the video (collection tape) or of the current track (single-video tape).
   */
  function FastForward(d: Deck, currentTime: real, duration: real): (r: Step)
    requires Valid(d)
    ensures r.deck == d
    ensures !d.ready || |d.playlist| == 0 ==> r.cmds == []
    ensures d.ready && |d.playlist| > 0 ==>
      |r.cmds| == 1 && r.cmds[0].SeekTo? && r.cmds[0].allowSeekAhead
    ensures d.ready && |d.playlist| > 0 && OnCollection(d) ==>
      var t := r.cmds[0].seconds;
      t <= duration - 1.0 && t <= currentTime + SkipSeconds && (t == duration - 1.0 || t == currentTime + SkipSeconds)
    ensures d.ready && |d.playlist| > 0 && !OnCollection(d) ==>
      var t := r.cmds[0].seconds;
      var limit := if d.trackIndex < |d.playlist| - 1 then CatalogueStart(d, d.trackIndex + 1) as real - 1.0 else duration - 1.0;
      t <= limit && t <= currentTime + SkipSeconds && (t == limit || t == currentTime + SkipSeconds)
  {
    if !d.ready || |d.playlist| == 0 then
      Step(d, [])
    else if OnCollection(d) then
      Step(d, [SeekTo(Min(duration - 1.0, currentTime + SkipSeconds), true)])
    else
      StampedWindow(d);
      Step(d, [SeekTo(Min(TrackEnd(d, duration) - 1.0, currentTime + SkipSeconds), true)])
  }

  /**
    `seek`: a click at `fraction` of the progress bar (clamped to [0, 1])
    seeks to that fraction of the video (collection tape) or of the current
    track's window (single-video tape).
   */
  function Seek(d: Deck, fraction: real, duration: real): (r: Step)
    requires Valid(d)
    ensures r.deck == d
    ensures !d.ready || |d.playlist| == 0 ==> r.cmds == []
    ensures d.ready && |d.playlist| > 0 ==>
      |r.cmds| == 1 && r.cmds[0].SeekTo? && r.cmds[0].allowSeekAhead
    ensures d.ready && |d.playlist| > 0 && OnCollection(d) ==>
      && r.cmds[0].seconds == Lerp(0.0, duration, Clamp(fraction, 0.0, 1.0))
      && (duration >= 0.0 ==> 0.0 <= r.cmds[0].seconds <= duration)
      && (fraction <= 0.0 ==> r.cmds[0].seconds == 0.0)
      && (fraction >= 1.0 ==> r.cmds[0].seconds == duration)
    ensures d.ready && |d.playlist| > 0 && !OnCollection(d) ==>
      var start := CatalogueStart(d, d.trackIndex) as real;
      var end := TrackEnd(d, duration);
      && r.cmds[0].seconds == Lerp(start, end, Clamp(fraction, 0.0, 1.0))
      && (start <= end ==> start <= r.cmds[0].seconds <= end)
      && (fraction <= 0.0 ==> r.cmds[0].seconds == start)
      && (fraction >= 1.0 ==> r.cmds[0].seconds == end)
  {
    var percent := Clamp(fraction, 0.0, 1.0);
    if !d.ready || |d.playlist| == 0 then
      Step(d, [])
    else if OnCollection(d) then
      Step(d, [SeekTo(Lerp(0.0, duration, percent), true)])
    else
      StampedWindow(d);
      Step(d, [SeekTo(Lerp(TrackStart(d), TrackEnd(d, duration), percent), true)])
  }

  lemma ScaleDown(p: real, w: real)
    requires 0.0 <= p <= 1.0 && 0.0 <= w
    ensures 0.0 <= p * w <= w
  {
    assert (1.0 - p) * w >= 0.0;
    assert w - p * w == (1.0 - p) * w;
  }

  /**
    The point a fraction `p` of the way from `a` to `b`: `a` itself at 0,
    `b` at 1, and in between when `a <= b`. From `a = 0` it is the
    `p * b` the source computes for a whole video.
   */
  function Lerp(a: real, b: real, p: real): (x: real)
    requires 0.0 <= p <= 1.0
    ensures a <= b ==> a <= x <= b
    ensures x - a == p * (b - a)
    ensures p == 0.0 ==> x == a
    ensures p == 1.0 ==> x == b
  {
    var w := b - a;
    if 0.0 <= w then
      ScaleDown(p, w);
      a + p * w
    else
      a + p * w
  }

  /**
    `updateVolume`: the level is clamped to [0, 1] and a ready player gets it
    on its 0..100 scale.
   */
  function UpdateVolume(d: Deck, value: real): (r: Step)
    requires Valid(d)
    ensures Valid(r.deck)
    ensures r.deck == d.(volume := r.deck.volume)
    ensures 0.0 <= r.deck.volume <= 1.0
    ensures 0.0 <= value <= 1.0 ==> r.deck.volume == value
    ensures value < 0.0 ==> r.deck.volume == 0.0
    ensures value > 1.0 ==> r.deck.volume == 1.0
    ensures r.cmds == if d.ready then [SetVolume(r.deck.volume * 100.0)] else []
  {
    var level := Clamp(value, 0.0, 1.0);
    Step(d.(volume := level), if d.ready then [SetVolume(level * 100.0)] else [])
  }

  /** The Up arrow: one step louder, stopping at full volume. */
  function VolumeUp(d: Deck): (r: Step)
    requires Valid(d)
    ensures Valid(r.deck)
    ensures d.volume <= r.deck.volume <= d.volume + VolumeStep
    ensures r.deck.volume == 1.0 || r.deck.volume == d.volume + VolumeStep
    ensures r.deck == d.(volume := r.deck.volume)
    ensures r.cmds == if d.ready then [SetVolume(r.deck.volume * 100.0)] else []
  {
    UpdateVolume(d, Min(1.0, d.volume + VolumeStep))
  }

  /** The Down arrow: one step quieter, stopping at silence. */
  function VolumeDown(d: Deck): (r: Step)
    requires Valid(d)
    ensures Valid(r.deck)
    ensures d.volume - VolumeStep <= r.deck.volume <= d.volume
    ensures r.deck.volume == 0.0 || r.deck.volume == d.volume - VolumeStep
    ensures r.deck == d.(volume := r.deck.volume)
    ensures r.cmds == if d.ready then [SetVolume(r.deck.volume * 100.0)] else []
  {
    UpdateVolume(d, Max(0.0, d.volume - VolumeStep))
  }

  /** The fill of the progress bar for `part` out of `whole`, as a percentage held to [0, 100]. */
  function Percent(part: real, whole: real): (r: real)
    requires whole > 0.0
    ensures 0.0 <= r <= 100.0
    ensures 0.0 <= part <= whole ==> r == part / whole * 100.0
    ensures part < 0.0 ==> r == 0.0
    ensures part > whole ==> r == 100.0
  {
    assert part > whole ==> part / whole > 1.0;
    assert part < 0.0 ==> part / whole < 0.0;
    Clamp(part / whole * 100.0, 0.0, 100.0)
  }

  /**
    A progress update on a collection tape: the bar shows the position in the
    whole video, and the total text becomes the video's own length in place
    of the catalogued one.
   */
  function TickWhole(d: Deck, currentTime: real, duration: real): (r: Deck)
    requires Valid(d)
    ensures Valid(r)
    ensures r == d.(display := r.display)
    ensures duration <= 0.0 ==> r == d
    ensures duration > 0.0 ==> r.display.total == FormatTime(duration) && r.display.elapsed == FormatTime(currentTime)
    ensures duration > 0.0 ==> r.display.percent == Percent(currentTime, duration)
    ensures duration > 0.0 && 0.0 <= currentTime <= duration ==> r.display.percent == currentTime / duration * 100.0
  {
    if duration > 0.0 then
      var fill := Percent(currentTime, duration);
      assert 0.0 <= currentTime <= duration ==> fill == currentTime / duration * 100.0;
      d.(display := Display(fill, FormatTime(currentTime), FormatTime(duration)))
    else
      d
  }

  /** The bar for a track playing from `start` to `end`: unchanged when the window is empty. */
  function Progress(d: Deck, currentTime: real, start: real, end: real): (r: Deck)
    requires Valid(d)
    ensures Valid(r)
    ensures r == d.(display := r.display)
    ensures end <= start ==> r == d
    ensures start < end && start <= currentTime <= end ==> r.display.percent == (currentTime - start) / (end - start) * 100.0
    ensures start < end ==> r.display.percent == Percent(currentTime - start, end - start)
    ensures r.display.total == d.display.total
  {
    if end - start > 0.0 then
      var progress := currentTime - start;
      d.(display := Display(Percent(progress, end - start), FormatTime(Max(0.0, progress)), d.display.total))
    else
      d
  }

  /**
    A progress update on a single-video tape: the bar shows the position in
    the current track's window, and once the player is past the end of a
    track that is not the last, the cursor moves on and the bar is reset.
   */
  function TickWindow(d: Deck, currentTime: real, duration: real): (r: Deck)
    requires Valid(d) && |d.playlist| > 0 && !OnCollection(d)
    ensures Valid(r)
    ensures r == d.(trackIndex := r.trackIndex, display := r.display)
    ensures r.trackIndex == d.trackIndex || r.trackIndex == d.trackIndex + 1
    ensures r.trackIndex == d.trackIndex + 1 <==>
      && d.trackIndex + 1 < |d.playlist|
      && StartSeconds(d.playlist[d.trackIndex]) < StartSeconds(d.playlist[d.trackIndex + 1])
      && currentTime >= StartSeconds(d.playlist[d.trackIndex + 1]) as real
    ensures r.trackIndex == d.trackIndex + 1 ==>
      r.display == ResetDisplay(d.playlist[d.trackIndex + 1].duration)
    ensures r.trackIndex == d.trackIndex ==> r == Progress(d, currentTime, TrackStart(d), TrackEnd(d, duration))
  {
    var i := d.trackIndex;
    var start, end := TrackStart(d), TrackEnd(d, duration);
    if end - start > 0.0 && currentTime >= end && i < |d.playlist| - 1 then
      CursorMoveKeepsValid(d, i + 1, ResetDisplay(d.playlist[i + 1].duration));
      d.(trackIndex := i + 1, display := ResetDisplay(d.playlist[i + 1].duration))
    else
      Progress(d, currentTime, start, end)
  }

  /**
    One firing of the progress interval. It does nothing unless the player is
    ready, the flag says playing and the playlist is non-empty; the cursor
    only ever moves one track on, and only on a single-video tape when the
    player has passed the start of the next track.
   */
  function Tick(d: Deck, currentTime: real, duration: real): (r: Deck)
    requires Valid(d)
    ensures Valid(r)
    ensures !(d.ready && d.playing && |d.playlist| > 0) ==> r == d
    ensures r == d.(trackIndex := r.trackIndex, display := r.display)
    ensures r.trackIndex == d.trackIndex || r.trackIndex == d.trackIndex + 1
    ensures r.trackIndex == d.trackIndex + 1 <==>
      && d.ready && d.playing && !OnCollection(d)
      && d.trackIndex + 1 < |d.playlist|
      && CatalogueStart(d, d.trackIndex) < CatalogueStart(d, d.trackIndex + 1)
      && currentTime >= CatalogueStart(d, d.trackIndex + 1) as real
    ensures r.trackIndex == d.trackIndex + 1 ==>
      r.display == ResetDisplay(d.playlist[d.trackIndex + 1].duration)
    ensures d.ready && d.playing && |d.playlist| > 0 && OnCollection(d) ==> r == TickWhole(d, currentTime, duration)
    ensures d.ready && d.playing && |d.playlist| > 0 && !OnCollection(d) ==> r == TickWindow(d, currentTime, duration)
  {
    if !(d.ready && d.playing && |d.playlist| > 0) then
      d
    else if OnCollection(d) then
      TickWhole(d, currentTime, duration)
    else
      var r := TickWindow(d, currentTime, duration);
      assert r.trackIndex == d.trackIndex + 1 <==>
        && d.trackIndex + 1 < |d.playlist|
        && CatalogueStart(d, d.trackIndex) < CatalogueStart(d, d.trackIndex + 1)
        && currentTime >= CatalogueStart(d, d.trackIndex + 1) as real
      by { StampedWindow(d); }
      r
  }

  /** `stopYTProgressUpdate`: clears the interval the handle holds, if any. */
  function StopPolling(d: Deck): (r: Deck)
    requires d.liveTimers == (if d.timerHandle then 1 else 0)
    ensures !r.timerHandle && r.liveTimers == 0
    ensures r == d.(timerHandle := false, liveTimers := 0)
  {
    if d.timerHandle then d.(timerHandle := false, liveTimers := d.liveTimers - 1) else d
  }

  /** `startYTProgressUpdate`: clears any running interval first, then starts one. */
  function StartPolling(d: Deck): (r: Deck)
    requires d.liveTimers == (if d.timerHandle then 1 else 0)
    ensures r.timerHandle && r.liveTimers == 1
    ensures r == d.(timerHandle := true, liveTimers := 1)
  {
    var stopped := StopPolling(d);
    stopped.(timerHandle := true, liveTimers := stopped.liveTimers + 1)
  }

  /**
    `onPlayerStateChange`: PLAYING sets the flag and (re)starts polling;
    PAUSED clears it and stops polling; ENDED moves on to the next track of a
    collection tape that is not on its last track, and otherwise stops with
    the cursor where it is; every other state is ignored.
   */
  function OnPlayerStateChange(d: Deck, state: PlayerState): (r: Step)
    requires Valid(d)
    ensures Valid(r.deck)
    ensures state == Playing ==>
      r.deck == d.(playing := true, timerHandle := true, liveTimers := 1) && r.cmds == []
    ensures state == Paused ==>
      r.deck == d.(playing := false, timerHandle := false, liveTimers := 0) && r.cmds == []
    ensures state == Ended && OnCollection(d) && d.trackIndex + 1 < |d.playlist| ==>
      && r == NextTrack(d)
      && r.deck == d.(trackIndex := d.trackIndex + 1, display := ResetDisplay(d.playlist[d.trackIndex + 1].duration))
      && (!d.ready ==> r.cmds == [])
      && (d.ready && ActiveTape(d).recording.clips[d.trackIndex + 1].videoId != "" ==>
            r.cmds == [LoadAndPlay(ActiveTape(d).recording.clips[d.trackIndex + 1].videoId)]
                      + (if d.playing then [] else [DeferredPause]))
    ensures state == Ended && !(OnCollection(d) && d.trackIndex + 1 < |d.playlist|) ==>
      r.deck == d.(playing := false, timerHandle := false, liveTimers := 0) && r.cmds == []
    ensures state !in {Playing, Paused, Ended} ==> r == Step(d, [])
  {
    match state
    case Playing => Step(StartPolling(d.(playing := true)), [])
    case Paused => Step(StopPolling(d.(playing := false)), [])
    case Ended =>
      if OnCollection(d) && d.trackIndex < |d.playlist| - 1 then
        NextTrack(d)
      else
        Step(StopPolling(d.(playing := false)), [])
    case _ => Step(d, [])
  }

  /**
    `onPlayerError`: only "video unavailable" (150) and "embedding not
    allowed" (101) skip to the next track; other codes change nothing.
   */
  function OnPlayerError(d: Deck, code: int): (r: Step)
    requires Valid(d)
    requires code == ErrorUnavailable || code == ErrorNotEmbeddable ==> |d.playlist| > 0
    ensures Valid(r.deck)
    ensures code == ErrorUnavailable || code == ErrorNotEmbeddable ==>
      var next := if d.trackIndex + 1 < |d.playlist| then d.trackIndex + 1 else 0;
      && r == NextTrack(d)
      && r.deck == d.(trackIndex := next, display := ResetDisplay(d.playlist[next].duration))
      && (!d.ready ==> r.cmds == [])
      && (d.ready && !OnCollection(d) ==>
            r.cmds == [SeekTo(CatalogueStart(d, next) as real, true)] + (if d.playing then [Play] else []))
      && (d.ready && OnCollection(d) && ActiveTape(d).recording.clips[next].videoId != "" ==>
            r.cmds == [LoadAndPlay(ActiveTape(d).recording.clips[next].videoId)] + (if d.playing then [] else [DeferredPause]))
    ensures code != ErrorUnavailable && code != ErrorNotEmbeddable ==> r == Step(d, [])
  {
    if code == ErrorUnavailable || code == ErrorNotEmbeddable then NextTrack(d) else Step(d, [])
  }

  /**
    The video `loadTape` cues: a collection's first clip, or a single-video
    tape's own video. There is nothing to cue exactly when the tape cannot be
    played or is a collection without clips.
   */
  function CueTarget(t: Tape): (r: Option<string>)
    ensures r.None? <==> !Playable(t) || (t.recording.Collection? && TrackCount(t) == 0)
    ensures r.Some? && t.recording.SingleVideo? ==> r.value == t.recording.videoId
    ensures r.Some? && t.recording.Collection? ==> r.value == t.recording.clips[0].videoId
  {
    match t.recording
    case Collection(clips) => if |clips| > 0 then Some(clips[0].videoId) else None
    case SingleVideo(videoId, _) => if videoId != "" then Some(videoId) else None
  }

  /**
    `loadTape(i)`: the active index is set first; a tape that is neither a
    collection nor has a video stops there. Otherwise the playlist is
    projected afresh, a ready player cues the tape's first video, the cursor
    goes to track 0 and the progress bar is reset. Play/pause is untouched.
   */
  function LoadTape(d: Deck, i: nat): (r: Step)
    requires Valid(d) && i < |d.tapes|
    ensures r.deck.tapeIndex == i
    ensures Playable(d.tapes[i]) || i == d.tapeIndex ==> Valid(r.deck)
    ensures !Playable(d.tapes[i]) ==> r == Step(d.(tapeIndex := i), [])
    ensures Playable(d.tapes[i]) ==>
      && r.deck == d.(tapeIndex := i, playlist := Project(d.tapes[i]), trackIndex := 0, display := r.deck.display)
      && r.deck.display.percent == 0.0 && r.deck.display.elapsed == "0:00"
      && (TrackCount(d.tapes[i]) > 0 ==> r.deck.display.total == Project(d.tapes[i])[0].duration)
    ensures !d.ready ==> r.cmds == []
    ensures d.ready && d.tapes[i].recording.SingleVideo? && Playable(d.tapes[i]) ==>
      r.cmds == [Cue(d.tapes[i].recording.videoId)]
    ensures d.ready && d.tapes[i].recording.Collection? ==>
      r.cmds == if |d.tapes[i].recording.clips| > 0 then [Cue(d.tapes[i].recording.clips[0].videoId)] else []
  {
    var tape := d.tapes[i];
    if !Playable(tape) then
      Step(d.(tapeIndex := i), [])
    else
      var playlist := Project(tape);
      var cmds := if d.ready && CueTarget(tape).Some? then [Cue(CueTarget(tape).value)] else [];
      var total := if |playlist| > 0 then playlist[0].duration else d.display.total;
      Step(d.(tapeIndex := i, playlist := playlist, trackIndex := 0, display := ResetDisplay(total)), cmds)
  }

  /**
    A click on tape card `i`: a tape without content is ignored; otherwise
    playback is paused if running and the tape is loaded.
   */
  function SelectTape(d: Deck, i: nat): (r: Step)
    requires Valid(d) && i < |d.tapes|
    ensures Valid(r.deck)
    ensures !Playable(d.tapes[i]) ==> r == Step(d, [])
    ensures Playable(d.tapes[i]) ==>
      && !r.deck.playing && r.deck.tapeIndex == i && r.deck.trackIndex == 0
      && r.deck.playlist == Project(d.tapes[i])
      && r.deck.display.percent == 0.0
    ensures Playable(d.tapes[i]) ==>
      r.deck == d.(playing := false, tapeIndex := i, playlist := Project(d.tapes[i]), trackIndex := 0, display := r.deck.display)
    ensures d.ready && d.playing && Playable(d.tapes[i]) ==> |r.cmds| >= 1 && r.cmds[0] == Pause
    ensures d.ready && Playable(d.tapes[i]) ==>
      r.cmds == (if d.playing then [Pause] else [])
                + (if CueTarget(d.tapes[i]).Some? then [Cue(CueTarget(d.tapes[i]).value)] else [])
    ensures !d.ready ==> r.cmds == []
  {
    if !Playable(d.tapes[i]) then
      Step(d, [])
    else
      var paused := if d.playing then PauseTrack(d) else Step(d, []);
      var loaded := LoadTape(paused.deck, i);
      Step(loaded.deck, paused.cmds + loaded.cmds)
  }

  /** `onPlayerReady`: the player becomes ready, gets the volume, and the active tape is loaded. */
  function OnPlayerReady(d: Deck): (r: Step)
    requires Valid(d)
    ensures Valid(r.deck)
    ensures r.deck.ready && r.deck.tapeIndex == d.tapeIndex && r.deck.playing == d.playing
    ensures |r.cmds| >= 1 && r.cmds[0] == SetVolume(d.volume * 100.0)
    ensures Playable(ActiveTape(d)) ==> r.deck.trackIndex == 0
    ensures Playable(ActiveTape(d)) ==> r.deck == d.(ready := true, trackIndex := 0, display := r.deck.display)
    ensures !Playable(ActiveTape(d)) ==> r.deck == d.(ready := true)
    ensures r.cmds == [SetVolume(d.volume * 100.0)]
      + (if CueTarget(ActiveTape(d)).Some? then [Cue(CueTarget(ActiveTape(d)).value)] else [])
  {
    var loaded := LoadTape(d.(ready := true), d.tapeIndex);
    Step(loaded.deck, [SetVolume(d.volume * 100.0)] + loaded.cmds)
  }

  /**
    The video the player is created with: the active tape's first video, or a
    fixed fallback when the tape names none. It is the video `loadTape`
    later cues whenever that one is non-empty.
   */
  function InitialVideo(d: Deck): (v: string)
    requires Valid(d)
    ensures v != ""
    ensures CueTarget(ActiveTape(d)).Some? && CueTarget(ActiveTape(d)).value != "" ==>
      v == CueTarget(ActiveTape(d)).value
    ensures CueTarget(ActiveTape(d)).None? || CueTarget(ActiveTape(d)).value == "" ==> v == FallbackVideo
  {
    match ActiveTape(d).recording
    case Collection(clips) =>
      if |clips| > 0 && clips[0].videoId != "" then clips[0].videoId else FallbackVideo
    case SingleVideo(videoId, _) =>
      if videoId != "" then videoId else FallbackVideo
  }

  /** Permuting the shelf while the index follows the active tape keeps the invariant. */
  lemma ShelfPermutationKeepsValid(d: Deck, tapes: seq<Tape>, index: nat)
    requires Valid(d)
    requires multiset(tapes) == multiset(d.tapes) && index < |tapes| && tapes[index] == ActiveTape(d)
    ensures Valid(d.(tapes := tapes, tapeIndex := index))
  {
    forall t | t in tapes
      ensures WellFormed(t)
    {
      assert t in multiset(tapes);
    }
  }

  /**
    The drop of a dragged tape card on another card (`dropLeft` says which
    half of the target it landed on). The shelf is permuted, the active index
    follows the active tape, so the playlist still mirrors it.
   */
  function ReorderTapes(d: Deck, dragged: Option<nat>, target: nat, dropLeft: bool): (r: Deck)
    requires Valid(d) && target < |d.tapes|
    requires dragged.Some? ==> dragged.value < |d.tapes|
    ensures Valid(r)
    ensures multiset(r.tapes) == multiset(d.tapes)
    ensures ActiveTape(r) == ActiveTape(d)
    ensures r == d.(tapes := r.tapes, tapeIndex := r.tapeIndex)
    ensures dragged.None? || dragged.value == target ==> r == d
    ensures dragged.Some? && dragged.value != target ==>
      DropIndex(dragged.value, target, dropLeft) < |r.tapes| &&
      r.tapes[DropIndex(dragged.value, target, dropLeft)] == d.tapes[dragged.value]
  {
    var moved := Drop(d.tapes, d.tapeIndex, dragged, target, dropLeft);
    if dragged.Some? && dragged.value != target then
      DropTracksEveryTape(d.tapes, d.tapeIndex, dragged.value, target, dropLeft);
      ShelfPermutationKeepsValid(d, moved.items, moved.active);
      d.(tapes := moved.items, tapeIndex := moved.active)
    else
      d.(tapes := moved.items, tapeIndex := moved.active)
  }
}

=== FILE: deck_properties.dfy ===
/**
  Properties of the playback cursor that relate several transitions: track
  navigation cycles, undoing a step, volume idempotence, and what a player
  that is not ready yet does with commands.
 */
module DeckProperties {
  import opened Library
  import opened Deck

  /** `nextTrack` pressed `k` times. */
  function NextN(d: Deck, k: nat): (r: Deck)
    requires Valid(d) && |d.playlist| > 0
    ensures r.playlist == d.playlist && r.playing == d.playing
    decreases k
  {
    if k == 0 then d else NextN(NextTrack(d).deck, k - 1)
  }

  /**
    Up to a full round, `k` presses of next move the cursor `k` tracks on,
    wrapping past the last track to the first.
   */
  lemma {:induction false} NextNAdvances(d: Deck, k: nat)
    requires Valid(d) && |d.playlist| > 0
    requires k <= |d.playlist|
    ensures NextN(d, k).trackIndex ==
      if d.trackIndex + k < |d.playlist| then d.trackIndex + k else d.trackIndex + k - |d.playlist|
    decreases k
  {
    if k > 0 {
      var n, i := |d.playlist|, d.trackIndex;
      var next := NextTrack(d).deck;
      assert |next.playlist| == n;
      assert NextN(d, k) == NextN(next, k - 1);
      NextNAdvances(next, k - 1);
      var j := NextN(next, k - 1).trackIndex;
      if i + 1 < n {
        assert next.trackIndex == i + 1;
        assert j == if i + k < n then i + k else i + k - n;
      } else {
        assert next.trackIndex == 0;
        assert j == k - 1;
      }
    }
  }

  /** Pressing next as many times as there are tracks comes back to the starting track. */
  lemma NextCycle(d: Deck)
    requires Valid(d) && |d.playlist| > 0
    ensures NextN(d, |d.playlist|).trackIndex == d.trackIndex
    ensures NextN(d, |d.playlist|).playing == d.playing
  {
    NextNAdvances(d, |d.playlist|);
  }

  /** Previous undoes next: the cursor is back on its track, on the same tape, with the same play state. */
  lemma PrevUndoesNext(d: Deck)
    requires Valid(d) && |d.playlist| > 0
    ensures var back := PrevTrack(NextTrack(d).deck).deck;
      back.trackIndex == d.trackIndex && back.playing == d.playing
      && back.tapes == d.tapes && back.tapeIndex == d.tapeIndex && back.playlist == d.playlist
  {
  }

  /** Next undoes previous. */
  lemma NextUndoesPrev(d: Deck)
    requires Valid(d) && |d.playlist| > 0
    ensures var back := NextTrack(PrevTrack(d).deck).deck;
      back.trackIndex == d.trackIndex && back.playing == d.playing
      && back.tapes == d.tapes && back.tapeIndex == d.tapeIndex && back.playlist == d.playlist
  {
  }

  /** Pressing play/pause twice puts the deck back as it was. */
  lemma ToggleTwice(d: Deck)
    requires Valid(d)
    ensures TogglePlay(TogglePlay(d).deck).deck == d
    ensures TogglePlay(d).cmds + TogglePlay(TogglePlay(d).deck).cmds ==
      if !d.ready then [] else if d.playing then [Pause, Play] else [Play, Pause]
  {
  }

  /** Setting the volume twice to the same value is the same as setting it once. */
  lemma UpdateVolumeIdempotent(d: Deck, value: real)
    requires Valid(d)
    ensures UpdateVolume(UpdateVolume(d, value).deck, value) == UpdateVolume(d, value)
  {
  }

  /**
    Before the player is ready no command reaches it, but the cursor still
    moves: play/pause flips the flag and next/previous change the track.
   */
  lemma NotReadySendsNothing(d: Deck, currentTime: real, duration: real, fraction: real, value: real)
    requires Valid(d) && !d.ready
    ensures TogglePlay(d).cmds == [] && TogglePlay(d).deck.playing == !d.playing
    ensures Rewind(d, currentTime) == Step(d, [])
    ensures FastForward(d, currentTime, duration) == Step(d, [])
    ensures Seek(d, fraction, duration) == Step(d, [])
    ensures UpdateVolume(d, value).cmds == []
    ensures |d.playlist| > 0 ==> NextTrack(d).cmds == [] && PrevTrack(d).cmds == []
    ensures |d.playlist| > 1 ==> NextTrack(d).deck.trackIndex != d.trackIndex
  {
  }

  /** An ENDED event on the last track of a single-video tape pauses without moving the cursor. */
  lemma EndedOnSingleVideoPauses(d: Deck)
    requires Valid(d) && !OnCollection(d)
    ensures var r := OnPlayerStateChange(d, Ended);
      !r.deck.playing && r.deck.trackIndex == d.trackIndex && !r.deck.timerHandle && r.cmds == []
  {
  }
}

=== FILE: library.dfy ===
/**
  The tape library: the catalogue's two kinds of tape, the flat track list
  ("playlist") projected from the active tape, and the drag-and-drop reorder
  of the tape shelf.
 */
module Library {
  import opened Timestamp
  import opened Wrappers

  /** A track of a single-video tape: a title and its start offset inside the video. */
  datatype StampEntry = StampEntry(title: string, timestamp: string)

  /** A track of a collection tape: its own video and its catalogued length ("" when absent). */
  datatype ClipEntry = ClipEntry(title: string, videoId: string, duration: string)

  /**
    The two kinds of tape. An empty `videoId` stands for a missing or empty
    field, which JavaScript treats as false.
   */
  datatype Recording =
    | SingleVideo(videoId: string, stamps: seq<StampEntry>)
    | Collection(clips: seq<ClipEntry>)

  datatype Tape = Tape(title: string, series: string, tone: string, artwork: string, recording: Recording)

  /** Where a projected track plays from: its own video, or an offset into the tape's video. */
  datatype TrackSource =
    | Clip(videoId: string)
    | Stamp(timestamp: string, startSeconds: nat)

  /** An entry of the projected playlist; `artist` is the owning tape's title. */
  datatype Track = Track(title: string, artist: string, duration: string, source: TrackSource)

  /** Shown as the length of a single-video tape's last track, whose end is not known from the catalogue. */
  const LastTrackDuration: string := "3:00"

  /** Shown as the length of a collection track that has none catalogued. */
  const MissingDuration: string := "—"

  function TrackCount(t: Tape): nat {
    match t.recording
    case SingleVideo(_, stamps) => |stamps|
    case Collection(clips) => |clips|
  }

  function EntryTitle(t: Tape, i: nat): string
    requires i < TrackCount(t)
  {
    match t.recording
    case SingleVideo(_, stamps) => stamps[i].title
    case Collection(clips) => clips[i].title
  }

  predicate StampsWellFormed(stamps: seq<StampEntry>) {
    forall k :: 0 <= k < |stamps| ==> IsTimestampText(stamps[k].timestamp)
  }

  /** Every timestamp of the tape is digit-and-colon text. */
  predicate WellFormed(t: Tape) {
    t.recording.SingleVideo? ==> StampsWellFormed(t.recording.stamps)
  }

  /** The guard of a tape click and of `loadTape`: a tape plays when it is a collection or has a video. */
  predicate Playable(t: Tape) {
    t.recording.Collection? || t.recording.videoId != ""
  }

  function StartOf(stamps: seq<StampEntry>, i: nat): nat
    requires StampsWellFormed(stamps) && i < |stamps|
  {
    ParseTimestamp(stamps[i].timestamp)
  }

  /**
    `calculateTrackDuration`: the gap to the next track's start, or the fixed
    value for the last track. It always shows a colon, and it is timestamp
    text unless the next track starts earlier than this one.
   */
  function CalculateTrackDuration(stamps: seq<StampEntry>, index: nat): (r: string)
    requires StampsWellFormed(stamps) && index < |stamps|
    ensures ':' in r
    ensures index + 1 < |stamps| && StartOf(stamps, index) <= StartOf(stamps, index + 1) ==> IsTimestampText(r)
  {
    if index < |stamps| - 1 then
      FormatTime((StartOf(stamps, index + 1) - StartOf(stamps, index)) as real)
    else
      assert LastTrackDuration[1] == ':';
      LastTrackDuration
  }

  function ClipDuration(c: ClipEntry): string {
    if c.duration != "" then c.duration else MissingDuration
  }

  /**
    Entry `i` of the playlist built from a tape: the catalogue entry's title
    under the tape's title as artist, a duration that is never empty (so the
    `"0:00"` fallback of `loadTrack` is never needed), and a source of the
    tape's own kind; a single-video track starts at the value of its own
    timestamp text.
   */
  function ProjectAt(t: Tape, i: nat): (r: Track)
    requires WellFormed(t) && i < TrackCount(t)
    ensures r.title == EntryTitle(t, i) && r.artist == t.title
    ensures r.duration != ""
    ensures r.source.Stamp? <==> t.recording.SingleVideo?
    ensures r.source.Stamp? ==>
      IsTimestampText(r.source.timestamp) && r.source.startSeconds == ParseTimestamp(r.source.timestamp)
  {
    match t.recording
    case SingleVideo(_, stamps) =>
      Track(stamps[i].title, t.title, CalculateTrackDuration(stamps, i), Stamp(stamps[i].timestamp, StartOf(stamps, i)))
    case Collection(clips) =>
      Track(clips[i].title, t.title, ClipDuration(clips[i]), Clip(clips[i].videoId))
  }

  /** The playlist `playlist` is, entry by entry, the one projected from `t`. */
  predicate Mirrors(playlist: seq<Track>, t: Tape)
    requires WellFormed(t)
  {
    && |playlist| == TrackCount(t)
    && forall i {:trigger ProjectAt(t, i)} :: 0 <= i < |playlist| ==> playlist[i] == ProjectAt(t, i)
  }

  /**
    The playlist built by `loadTape` (and by `init`) from a tape: one track
    per catalogue entry, in catalogue order, each carrying the tape's title as
    its artist. A single-video track starts at its parsed timestamp and lasts
    what `calculateTrackDuration` gives, the last one the fixed `3:00`; a
    collection track keeps its own video and its catalogued duration (or a
    dash). `Mirrors` is the same statement entry by entry.
   */
  function Project(t: Tape): (r: seq<Track>)
    requires WellFormed(t)
    ensures Mirrors(r, t)
    ensures |r| == TrackCount(t)
    ensures forall i :: 0 <= i < |r| ==> r[i].title == EntryTitle(t, i) && r[i].artist == t.title
    ensures t.recording.SingleVideo? ==> var stamps := t.recording.stamps;
      forall i :: 0 <= i < |r| ==> r[i].source == Stamp(stamps[i].timestamp, StartOf(stamps, i))
    ensures t.recording.SingleVideo? ==> var stamps := t.recording.stamps;
      forall i :: 0 <= i < |r| ==> r[i].duration == CalculateTrackDuration(stamps, i)
    ensures t.recording.SingleVideo? && |r| > 0 ==> r[|r| - 1].duration == LastTrackDuration
    ensures t.recording.Collection? ==> var clips := t.recording.clips;
      forall i :: 0 <= i < |r| ==> r[i].source == Clip(clips[i].videoId) && r[i].duration == ClipDuration(clips[i])
  {
    var r := seq(TrackCount(t), i requires 0 <= i < TrackCount(t) => ProjectAt(t, i));
    assert forall i :: 0 <= i < |r| ==> r[i] == ProjectAt(t, i);
    r
  }

  /** A playlist that mirrors a tape is the projected one. */
  lemma MirrorsIsProject(playlist: seq<Track>, t: Tape)
    requires WellFormed(t)
    ensures Mirrors(playlist, t) <==> playlist == Project(t)
  {
  }

  /** Start offsets never decrease along the tape. */
  predicate StampsOrdered(stamps: seq<StampEntry>)
    requires StampsWellFormed(stamps)
  {
    forall i :: 0 <= i < |stamps| - 1 ==> StartOf(stamps, i) <= StartOf(stamps, i + 1)
  }

  /**
    On a single-video tape with ordered timestamps the duration shown for
    track `i` reads back as the time until the next track starts, or as 180
    seconds when `i` is the last track.
   */
  lemma ProjectedDurationAt(t: Tape, i: nat)
    requires WellFormed(t) && t.recording.SingleVideo? && StampsOrdered(t.recording.stamps)
    requires i < |Project(t)|
    ensures IsTimestampText(Project(t)[i].duration)
    ensures i < |Project(t)| - 1 ==>
      Project(t)[i].source.startSeconds + ParseTimestamp(Project(t)[i].duration) == Project(t)[i + 1].source.startSeconds
    ensures i == |Project(t)| - 1 ==> ParseTimestamp(Project(t)[i].duration) == 180
  {
    var stamps := t.recording.stamps;
    var r := Project(t);
    assert r[i].duration == CalculateTrackDuration(stamps, i);
    if i < |r| - 1 {
      var gap := StartOf(stamps, i + 1) - StartOf(stamps, i);
      FormatThenParse(gap);
    } else {
      LastDurationIsThreeMinutes();
    }
  }

  /** The fixed `3:00` shown for a last track reads back as 180 seconds. */
  lemma LastDurationIsThreeMinutes()
    ensures IsTimestampText(LastTrackDuration) && ParseTimestamp(LastTrackDuration) == 180
  {
    TwoDigits('0', '0');
    assert Number("3") == 3 by { assert "3"[..0] == ""; }
    ParseMinutesSeconds("3", "00");
    assert "3" + ":" + "00" == LastTrackDuration;
  }

  /**
    On a single-video tape with ordered timestamps the projected durations,
    read back as timestamps, tile the video: each track's start plus its
    duration is the next track's start, and the last track lasts 180 seconds.
   */
  lemma ProjectedDurationsTile(t: Tape)
    requires WellFormed(t) && t.recording.SingleVideo? && StampsOrdered(t.recording.stamps)
    ensures var r := Project(t);
      forall i :: 0 <= i < |r| ==> IsTimestampText(r[i].duration)
    ensures var r := Project(t);
      forall i :: 0 <= i < |r| - 1 ==>
        r[i].source.startSeconds + ParseTimestamp(r[i].duration) == r[i + 1].source.startSeconds
    ensures var r := Project(t);
      |r| > 0 ==> ParseTimestamp(r[|r| - 1].duration) == 180
  {
    forall i | 0 <= i < |Project(t)|
      ensures IsTimestampText(Project(t)[i].duration)
      ensures i < |Project(t)| - 1 ==>
        Project(t)[i].source.startSeconds + ParseTimestamp(Project(t)[i].duration) == Project(t)[i + 1].source.startSeconds
      ensures i == |Project(t)| - 1 ==> ParseTimestamp(Project(t)[i].duration) == 180
    {
      ProjectedDurationAt(t, i);
    }
  }

  /**
    A single-video tape that opens with `0:00` and `2:42`, as the catalogue's
    first tape does, starts its first two tracks at 0 and 162 seconds, shows
    `2:42` as the length of the first, and its last track shows the fixed `3:00`.
   */
  lemma OpeningTracks(t: Tape)
    requires WellFormed(t) && t.recording.SingleVideo? && |t.recording.stamps| >= 2
    requires t.recording.stamps[0].timestamp == "0:00" && t.recording.stamps[1].timestamp == "2:42"
    ensures |Project(t)| == |t.recording.stamps|
    ensures Project(t)[0].source == Stamp("0:00", 0)
    ensures Project(t)[1].source == Stamp("2:42", 162)
    ensures Project(t)[0].duration == "2:42"
    ensures Project(t)[|Project(t)| - 1].duration == LastTrackDuration
  {
    var stamps := t.recording.stamps;
    assert StartOf(stamps, 0) == 0 by { FirstStampSeconds(); }
    assert StartOf(stamps, 1) == 162 by { SecondStampSeconds(); }
    FirstGapShown(stamps);
  }

  /** A first track from 0 to 162 seconds is shown as lasting `2:42`. */
  lemma FirstGapShown(stamps: seq<StampEntry>)
    requires StampsWellFormed(stamps) && |stamps| >= 2
    requires StartOf(stamps, 0) == 0 && StartOf(stamps, 1) == 162
    ensures CalculateTrackDuration(stamps, 0) == "2:42"
  {
    assert CalculateTrackDuration(stamps, 0) == FormatTime(162 as real);
    FormatSample();
  }

  // ----- Drag-and-drop reorder of the tape shelf -----

  /** The shelf after the drop, with the active index carried along. */
  datatype Reordered<T> = Reordered(items: seq<T>, active: nat)

  function Remove<T>(s: seq<T>, i: nat): (r: seq<T>)
    requires i < |s|
    ensures |r| == |s| - 1
    ensures forall j :: 0 <= j < |r| ==> r[j] == if j < i then s[j] else s[j + 1]
  {
    s[..i] + s[i + 1..]
  }

  function Insert<T>(s: seq<T>, i: nat, x: T): (r: seq<T>)
    requires i <= |s|
    ensures |r| == |s| + 1
    ensures forall j :: 0 <= j < |r| ==> r[j] == if j < i then s[j] else if j == i then x else s[j - 1]
  {
    s[..i] + [x] + s[i..]
  }

  /**
    Where the dragged tape lands: before or after the target, shifted down
    when it came from the left. Once it is re-inserted there, the target sits
    right after it (dropped on the left half) or right before it (right half),
    and the index stays inside the shelf.
   */
  function DropIndex(dragged: nat, target: nat, dropLeft: bool): (r: nat)
    ensures dragged != target ==> r <= (if dragged < target then target else dragged)
    ensures dragged != target && dropLeft ==> MovedPosition(dragged, r, target) == r + 1
    ensures dragged != target && !dropLeft ==> r >= 1 && MovedPosition(dragged, r, target) == r - 1
  {
    var n := if dropLeft then target else target + 1;
    if dragged < n then n - 1 else n
  }

  /**
    The drop handler's update of `currentTapeIndex`: it is exactly where the
    active tape itself moves to.
   */
  function FollowActive(dragged: nat, newIndex: nat, active: nat): (r: nat)
    ensures r == MovedPosition(dragged, newIndex, active)
  {
    if dragged == active then newIndex
    else if dragged < active && newIndex >= active then active - 1
    else if dragged > active && newIndex <= active then active + 1
    else active
  }

  /** Where the tape at position `i` sits after moving the tape at `dragged` to `newIndex`. */
  function MovedPosition(dragged: nat, newIndex: nat, i: nat): nat {
    if i == dragged then newIndex
    else
      var j := if i < dragged then i else i - 1;
      if j < newIndex then j else j + 1
  }

  /**
    The drop handler: nothing happens without a drag in progress or when a card
    is dropped on itself; otherwise the dragged tape is spliced out and back in
    at the drop position, and the active index is adjusted.
   */
  function Drop<T>(s: seq<T>, active: nat, dragged: Option<nat>, target: nat, dropLeft: bool): (r: Reordered<T>)
    requires active < |s| && target < |s|
    requires dragged.Some? ==> dragged.value < |s|
    ensures |r.items| == |s| && r.active < |s|
    ensures dragged.None? || dragged.value == target ==> r == Reordered(s, active)
  {
    if dragged.None? || dragged.value == target then
      Reordered(s, active)
    else
      var d := dragged.value;
      var n := DropIndex(d, target, dropLeft);
      Reordered(Insert(Remove(s, d), n, s[d]), FollowActive(d, n, active))
  }

  lemma MultisetRemoveInsert<T>(s: seq<T>, d: nat, n: nat)
    requires d < |s| && n < |s|
    ensures multiset(Insert(Remove(s, d), n, s[d])) == multiset(s)
  {
    var t := s[..d] + s[d + 1..];
    assert Remove(s, d) == t;
    calc {
      multiset(s);
      { assert s == s[..d] + [s[d]] + s[d + 1..]; }
      multiset(s[..d]) + multiset{s[d]} + multiset(s[d + 1..]);
      multiset(t) + multiset{s[d]};
      { assert t == t[..n] + t[n..]; }
      multiset(t[..n]) + multiset{s[d]} + multiset(t[n..]);
      multiset(t[..n] + [s[d]] + t[n..]);
      { assert Insert(t, n, s[d]) == t[..n] + [s[d]] + t[n..]; }
      multiset(Insert(t, n, s[d]));
    }
  }

  lemma MovedPositionLands<T>(s: seq<T>, dragged: nat, n: nat, i: nat)
    requires dragged < |s| && n < |s| && i < |s|
    ensures MovedPosition(dragged, n, i) < |s|
    ensures Insert(Remove(s, dragged), n, s[dragged])[MovedPosition(dragged, n, i)] == s[i]
  {
    var t := Remove(s, dragged);
    if i != dragged {
      var j := if i < dragged then i else i - 1;
      assert t[j] == s[i];
    }
  }

  /**
    The drop is a permutation that moves every tape to `MovedPosition`, and the
    adjusted active index is the new position of the tape that was active.
   */
  lemma DropTracksEveryTape<T>(s: seq<T>, active: nat, dragged: nat, target: nat, dropLeft: bool)
    requires active < |s| && target < |s| && dragged < |s| && dragged != target
    ensures var r := Drop(s, active, Some(dragged), target, dropLeft);
      && multiset(r.items) == multiset(s)
      && r.items[DropIndex(dragged, target, dropLeft)] == s[dragged]
      && (forall i :: 0 <= i < |s| ==> MovedPosition(dragged, DropIndex(dragged, target, dropLeft), i) < |s|)
      && (forall i :: 0 <= i < |s| ==> r.items[MovedPosition(dragged, DropIndex(dragged, target, dropLeft), i)] == s[i])
      && r.active == MovedPosition(dragged, DropIndex(dragged, target, dropLeft), active)
      && r.items[r.active] == s[active]
  {
    var n := DropIndex(dragged, target, dropLeft);
    assert n < |s|;
    var r := Drop(s, active, Some(dragged), target, dropLeft);
    assert r.items == Insert(Remove(s, dragged), n, s[dragged]);
    MultisetRemoveInsert(s, dragged, n);
    forall i | 0 <= i < |s|
      ensures MovedPosition(dragged, n, i) < |s|
      ensures r.items[MovedPosition(dragged, n, i)] == s[i]
    {
      MovedPositionLands(s, dragged, n, i);
    }
    assert r.active == MovedPosition(dragged, n, active);
  }

  /** Dragging the active tape from 2 to the left of 0 makes 0 the active index. */
  lemma DropActiveToFront<T>(s: seq<T>)
    requires |s| >= 3
    ensures Drop(s, 2, Some(2), 0, true).active == 0
  {
  }

  /** Dragging tape 0 to the left of tape 3 while tape 2 is active makes 1 the active index. */
  lemma DropAcrossActive<T>(s: seq<T>)
    requires |s| >= 4
    ensures Drop(s, 2, Some(0), 3, true).active == 1
    ensures Drop(s, 2, Some(0), 3, true).items[1] == s[2]
  {
  }
}

=== FILE: timestamp.dfy ===
/**
  Timestamp arithmetic of the player: the `H:MM:SS` / `M:SS` strings of the
  tape catalogue are folded into whole seconds, and seconds are rendered back
  as `m:ss`.

  JavaScript's `Number` is modelled only on strings of decimal digits (the
  empty string is 0, as in JavaScript); `Math.floor` and the truncating `%`
  operator are written out on mathematical reals.
 */
module Timestamp {

  predicate IsDigit(c: char) {
    '0' <= c <= '9'
  }

  predicate IsDigits(s: string) {
    forall i :: 0 <= i < |s| ==> IsDigit(s[i])
  }

  /** Catalogue timestamp text: decimal digits separated by colons. */
  predicate IsTimestampText(s: string) {
    forall i :: 0 <= i < |s| ==> IsDigit(s[i]) || s[i] == ':'
  }

  function DigitValue(c: char): (d: nat)
    requires IsDigit(c)
    ensures d < 10
  {
    (c as int) - ('0' as int)
  }

  function DigitChar(d: nat): (c: char)
    requires d < 10
    ensures IsDigit(c) && DigitValue(c) == d
  {
    (('0' as int) + d) as char
  }

  /** `Number(s)` for a string of decimal digits; leading zeros are allowed. */
  function Number(s: string): nat
    requires IsDigits(s)
  {
    if |s| == 0 then 0 else Number(s[..|s| - 1]) * 10 + DigitValue(s[|s| - 1])
  }

  lemma NumberSnoc(s: string, c: char)
    requires IsDigits(s) && IsDigit(c)
    ensures IsDigits(s + [c])
    ensures Number(s + [c]) == Number(s) * 10 + DigitValue(c)
  {
    assert (s + [c])[..|s|] == s;
  }

  /** Decimal rendering of a natural number, as `toString` gives it. */
  function NatToString(n: nat): (r: string)
    ensures IsDigits(r)
    ensures |r| == 1 <==> n < 10
    ensures |r| >= 1
    ensures Number(r) == n
  {
    if n < 10 then
      [DigitChar(n)]
    else
      var prefix := NatToString(n / 10);
      NumberSnoc(prefix, DigitChar(n % 10));
      prefix + [DigitChar(n % 10)]
  }

  /** `toString` of an integer: a minus sign before the magnitude when negative. */
  function IntToString(i: int): string {
    if i < 0 then "-" + NatToString(-i) else NatToString(i)
  }

  /** `s.padStart(2, '0')`. */
  function PadStart2(s: string): (r: string)
    ensures |r| == if |s| < 2 then 2 else |s|
    ensures IsDigits(s) ==> IsDigits(r)
  {
    if |s| >= 2 then s else seq(2 - |s|, _ => '0') + s
  }

  /** JavaScript's `Math.trunc` on a real. */
  function Trunc(x: real): int {
    if x >= 0.0 then x.Floor else -((-x).Floor)
  }

  /** JavaScript's `x % m`: the remainder takes the sign of the dividend. */
  function JsRem(x: real, m: real): real
    requires m != 0.0
  {
    x - m * (Trunc(x / m) as real)
  }

  /** JavaScript's `a % m` on integers, for a positive modulus. */
  function JsRemInt(a: int, m: int): (r: int)
    requires m > 0
    ensures a >= 0 ==> r == a % m
    ensures -m < r < m
  {
    if a >= 0 then a % m else -((-a) % m)
  }

  /**
    `formatTime`: minutes are `floor(s / 60)`, seconds `floor(s % 60)` padded
    to two characters. The text always has its colon, and for a time that is
    not negative it is catalogue timestamp text (no minus sign appears).
   */
  function FormatTime(seconds: real): (r: string)
    ensures ':' in r
    ensures seconds >= 0.0 ==> IsTimestampText(r)
  {
    var minutes := IntToString((seconds / 60.0).Floor);
    var secs := PadStart2(IntToString(JsRem(seconds, 60.0).Floor));
    assert (minutes + ":" + secs)[|minutes|] == ':';
    assert seconds >= 0.0 ==> 0 <= JsRem(seconds, 60.0).Floor by {
      if seconds >= 0.0 { JsRemNonNegative(seconds, 60.0); }
    }
    minutes + ":" + secs
  }

  /** A dividend that is not negative leaves a remainder that is not negative. */
  lemma JsRemNonNegative(x: real, m: real)
    requires x >= 0.0 && m > 0.0
    ensures JsRem(x, m) >= 0.0
  {
    var q := x / m;
    assert Trunc(q) as real <= q;
    assert m * (Trunc(q) as real) <= m * q;
    assert m * q == x;
  }

  /** `timestamp.split(':')`: the pieces between colons, always at least one. */
  function Split(s: string): (parts: seq<string>)
    ensures |parts| >= 1
    ensures forall k :: 0 <= k < |parts| ==> ':' !in parts[k]
    ensures IsTimestampText(s) ==> forall k :: 0 <= k < |parts| ==> IsDigits(parts[k])
  {
    if |s| == 0 then
      [""]
    else
      var rest := Split(s[1..]);
      if s[0] == ':' then [""] + rest else [[s[0]] + rest[0]] + rest[1..]
  }

  /** Pieces glued back together with colons between them; the inverse of `Split`. */
  function Join(parts: seq<string>): string
    requires |parts| >= 1
  {
    if |parts| == 1 then parts[0] else parts[0] + ":" + Join(parts[1..])
  }

  /**
    `parseTimestamp`: three pieces are hours, minutes and seconds, two are
    minutes and seconds, anything else is 0 -- so a bare number without a
    colon reads as 0 seconds.
   */
  function ParseTimestamp(s: string): (r: nat)
    requires IsTimestampText(s)
    ensures ':' !in s ==> r == 0
  {
    var parts := Split(s);
    assert ':' !in s ==> |parts| == 1 by {
      if ':' !in s {
        SplitColonFreePrefix(s, "");
        assert s + "" == s;
      }
    }
    if |parts| == 3 then
      Number(parts[0]) * 3600 + Number(parts[1]) * 60 + Number(parts[2])
    else if |parts| == 2 then
      Number(parts[0]) * 60 + Number(parts[1])
    else
      0
  }

  /** A colon-free prefix is glued onto the first piece. */
  lemma {:induction false} SplitColonFreePrefix(a: string, t: string)
    requires ':' !in a
    ensures Split(a + t) == [a + Split(t)[0]] + Split(t)[1..]
    decreases |a|
  {
    if |a| == 0 {
      assert a + t == t;
      assert a + Split(t)[0] == Split(t)[0];
      assert Split(t) == [Split(t)[0]] + Split(t)[1..];
    } else {
      assert (a + t)[0] == a[0];
      assert (a + t)[1..] == a[1..] + t;
      SplitColonFreePrefix(a[1..], t);
      assert [a[0]] + (a[1..] + Split(t)[0]) == a + Split(t)[0];
    }
  }

  /** `Split` recovers the pieces `Join` glued together, as long as they are colon-free. */
  lemma {:induction false} SplitJoin(parts: seq<string>)
    requires |parts| >= 1
    requires forall k :: 0 <= k < |parts| ==> ':' !in parts[k]
    ensures Split(Join(parts)) == parts
    decreases |parts|
  {
    if |parts| == 1 {
      SplitColonFreePrefix(parts[0], "");
      assert parts[0] + "" == parts[0];
    } else {
      var tail := Join(parts[1..]);
      SplitJoin(parts[1..]);
      assert (":" + tail)[1..] == tail;
      assert Split(":" + tail) == [""] + parts[1..];
      assert Join(parts) == parts[0] + (":" + tail);
      SplitColonFreePrefix(parts[0], ":" + tail);
      assert parts[0] + "" == parts[0];
      assert parts == [parts[0]] + parts[1..];
    }
  }

  /** `Join` puts back together the pieces `Split` took apart. */
  lemma {:induction false} JoinSplit(s: string)
    ensures Join(Split(s)) == s
    decreases |s|
  {
    if |s| > 0 {
      var rest := Split(s[1..]);
      JoinSplit(s[1..]);
      if s[0] == ':' {
        assert Join([""] + rest) == "" + ":" + Join(rest);
      } else {
        var first := [s[0]] + rest[0];
        if |rest| == 1 {
          assert Split(s) == [first];
        } else {
          assert Split(s) == [first] + rest[1..];
          assert ([first] + rest[1..])[1..] == rest[1..];
          assert Join(rest) == rest[0] + ":" + Join(rest[1..]);
        }
      }
      assert s == [s[0]] + s[1..];
    }
  }

  lemma JoinDigitsIsText(parts: seq<string>)
    requires |parts| >= 1
    requires forall k :: 0 <= k < |parts| ==> IsDigits(parts[k])
    ensures IsTimestampText(Join(parts))
    decreases |parts|
  {
    if |parts| > 1 {
      JoinDigitsIsText(parts[1..]);
    }
  }

  /**
    What `parseTimestamp` computes from its pieces: `H:MM:SS` is `H*3600+MM*60+SS`,
    `M:SS` is `M*60+SS`, and every other number of pieces is 0.
   */
  lemma ParseJoined(parts: seq<string>)
    requires |parts| >= 1
    requires forall k :: 0 <= k < |parts| ==> IsDigits(parts[k])
    ensures IsTimestampText(Join(parts))
    ensures |parts| == 3 ==>
      ParseTimestamp(Join(parts)) == Number(parts[0]) * 3600 + Number(parts[1]) * 60 + Number(parts[2])
    ensures |parts| == 2 ==> ParseTimestamp(Join(parts)) == Number(parts[0]) * 60 + Number(parts[1])
    ensures |parts| != 2 && |parts| != 3 ==> ParseTimestamp(Join(parts)) == 0
  {
    JoinDigitsIsText(parts);
    SplitJoin(parts);
  }

  /** The seconds field of `m:ss`: exactly two digits whose value is below 60. */
  function SecondsField(n: nat): (r: string)
    requires n < 60
    ensures |r| == 2 && IsDigits(r) && Number(r) == n
  {
    var digits := NatToString(n);
    if n < 10 then
      assert digits == [DigitChar(n)];
      NumberSnoc("0", DigitChar(n));
      assert Number("0") == 0;
      assert "0" + [DigitChar(n)] == PadStart2(digits);
      PadStart2(digits)
    else
      PadStart2(digits)
  }

  /** On a whole number of seconds, `formatTime` gives minutes, a colon and two second digits. */
  lemma FormatWholeSeconds(n: nat)
    ensures FormatTime(n as real) == NatToString(n / 60) + ":" + SecondsField(n % 60)
  {
    var q, rem := n / 60, n % 60;
    var x := n as real;
    assert x / 60.0 == q as real + rem as real / 60.0;
    assert (x / 60.0).Floor == q;
    assert Trunc(x / 60.0) == q;
    assert JsRem(x, 60.0) == rem as real;
    assert JsRem(x, 60.0).Floor == rem;
  }

  /** Round trip: formatting a whole number of seconds and parsing it back gives the same number. */
  lemma FormatThenParse(n: nat)
    ensures IsTimestampText(FormatTime(n as real))
    ensures ParseTimestamp(FormatTime(n as real)) == n
  {
    FormatWholeSeconds(n);
    var parts := [NatToString(n / 60), SecondsField(n % 60)];
    assert Join(parts) == NatToString(n / 60) + ":" + SecondsField(n % 60) by {
      assert Join(parts[1..]) == parts[1];
    }
    ParseJoined(parts);
  }

  /** The catalogue's `1:01:00` is 3660 seconds. */
  lemma ParseHourStamp()
    ensures IsTimestampText("1:01:00")
    ensures ParseTimestamp("1:01:00") == 3660
  {
    var parts := ["1", "01", "00"];
    assert Join(parts) == "1:01:00" by {
      assert Join(parts[2..]) == "00";
      assert Join(parts[1..]) == "01:00";
    }
    TwoDigits('0', '1');
    TwoDigits('0', '0');
    assert Number("1") == 1 by { assert "1"[..0] == ""; }
    ParseJoined(parts);
  }

  lemma SmallNumbers()
    ensures NatToString(0) == "0" && NatToString(2) == "2"
    ensures NatToString(42) == "42"
    ensures SecondsField(0) == "00" && SecondsField(42) == "42"
  {
    assert NatToString(4) == "4";
    assert NatToString(42) == NatToString(4) + [DigitChar(2)];
  }

  /** 162 seconds are rendered `2:42`. */
  lemma FormatSample()
    ensures FormatTime(162.0) == "2:42"
  {
    calc {
      FormatTime(162.0);
      { assert (162 as real) == 162.0; }
      FormatTime(162 as real);
      { FormatWholeSeconds(162); }
      NatToString(162 / 60) + ":" + SecondsField(162 % 60);
      { assert 162 / 60 == 2 && 162 % 60 == 42; }
      NatToString(2) + ":" + SecondsField(42);
      { SmallNumbers(); }
      "2" + ":" + "42";
    }
  }

  /** Zero seconds are rendered `0:00`, the reset text of the progress bar. */
  lemma FormatZero()
    ensures FormatTime(0.0) == "0:00"
  {
    calc {
      FormatTime(0.0);
      { assert (0 as real) == 0.0; }
      FormatTime(0 as real);
      { FormatWholeSeconds(0); }
      NatToString(0) + ":" + SecondsField(0);
      { SmallNumbers(); }
      "0" + ":" + "00";
    }
  }

  /** `M:SS` text parses to `M*60+SS`. */
  lemma ParseMinutesSeconds(m: string, sec: string)
    requires IsDigits(m) && IsDigits(sec)
    ensures IsTimestampText(m + ":" + sec)
    ensures ParseTimestamp(m + ":" + sec) == Number(m) * 60 + Number(sec)
  {
    var parts := [m, sec];
    assert Join(parts) == m + ":" + sec by {
      assert Join(parts[1..]) == sec;
    }
    ParseJoined(parts);
  }

  /** The value of a two-digit string. */
  lemma TwoDigits(a: char, b: char)
    requires IsDigit(a) && IsDigit(b)
    ensures IsDigits([a, b]) && Number([a, b]) == DigitValue(a) * 10 + DigitValue(b)
  {
    NumberSnoc([a], b);
    assert [a] + [b] == [a, b];
    assert [a][..0] == "";
  }

  /** `2:42`, the second entry of the catalogue's first tape, is 162 seconds. */
  lemma SecondStampSeconds()
    ensures IsTimestampText("2:42") && ParseTimestamp("2:42") == 162
  {
    TwoDigits('4', '2');
    assert Number("2") == 2 by { assert "2"[..0] == ""; }
    ParseMinutesSeconds("2", "42");
    assert "2" + ":" + "42" == "2:42";
  }

  /** `0:00`, where every single-video tape starts, is 0 seconds. */
  lemma FirstStampSeconds()
    ensures IsTimestampText("0:00") && ParseTimestamp("0:00") == 0
  {
    TwoDigits('0', '0');
    assert Number("0") == 0 by { assert "0"[..0] == ""; }
    ParseMinutesSeconds("0", "00");
    assert "0" + ":" + "00" == "0:00";
  }
}

=== FILE: wrappers.dfy ===
/** Optional values, for the nullable variables of the player. */
module Wrappers {

  datatype Option<+T> = None | Some(value: T)
}
